=== FILE: README.md ===
# Viewport-fitting pagination of the textus reader

This project models the pagination engine inside `updateTextAsync` in the
textus reader activity (`src/public/js/activities/readTextActivity.js`). The
engine builds a page of a large remote text that fills the text view's target
height. It starts from an offset and works in one direction. While
the page fits, it fetches chunks of 2048 code units from the text service and
stitches them into a buffer `{offset, text, typography, semantics}`. Going
forwards, chunk annotations that start at or before the previous buffer end
are dropped; going backwards, those that end at or after the previous buffer
offset are dropped. Once the buffer overflows, or the start or end of the
document is reached, a halving search looks for the longest prefix
(forwards) or suffix (backwards) that fits. The
annotations are then filtered to that window. Last comes a boundary
correction: the window is committed, or the call restarts in the other
direction.

Modules:

- `Annotations` (`annotations.dfy`): the annotation datatype and the three
  filter criteria the engine uses. It also has a `Filter` function and a
  declarative description of a filtered list (`IsFilterOf`). That
  description pins the list down uniquely.
- `Buffers` (`buffers.dfy`): the buffer, the chunk and the text service
  (`Source`). Text is a sequence of UTF-16 code units (`Text`), because
  JavaScript's `length` and `substring` count code units. `IsSpan` says that
  a text is the stretch of the document at an offset.
- `Fetch` (`fetch.dfy`): the forward and backward growth steps, and the
  growth loop `Grow`. `IsRun` describes a run of the `fetch` recursion step
  by step; `Grow` returns the run it performed, and `RunIsUnique` shows that
  such a run is determined by its first state, so the grown buffer,
  annotation lists included, is the one the recursion builds.
- `Trim` (`trim.dfy`): `trimData` (as `Candidate`) and the halving loop
  (`Halve`). The loop works on `FitsAt`, the measurement of one candidate
  length. The module holds the source's search (`Search`), the corrected
  search (`SearchCorrected`) and the commit-or-restart decision
  (`Finalise`).
- `Pagination` (`pagination.dfy`): one whole pagination call, plus the three
  navigation requests the activity issues from the current window.

The renderer's `measure(markupText(...)) <= height` is a function parameter
`fits: Buffer -> bool`. Some properties hold only for a well-behaved
renderer. `Trim.ShrinkKeepsFit` states that hypothesis: whether a buffer fits
depends on its text alone, and cutting code units off either end of a text
that fits leaves a text that fits. The text service's choice of annotations
for a range is not visible to the engine, so `Source` leaves it as an
uninterpreted function of the requested range. The service's text is the document cut to
the requested range, stopping at the document end.

Notes on reading the code:

- The forward de-duplication test (lines 64 and 69) compares against the
  call's `offset` parameter plus the buffer length. It does not use the
  buffer's own offset. Going forwards the two are equal: `Grow` proves that
  the buffer offset stays at the starting offset. The model therefore uses
  the buffer end.
- `trimData` can be called with a negative length. When the buffer is
  shorter than 2047 code units, the baseline is below zero. JavaScript's
  `substring` clamps such a bound to zero, so the model clamps explicitly.
  Going backwards, the offset is not clamped. All call sites keep the length
  at or below the buffer length, and `Candidate` requires that.
- Three behaviours of the code are modelled as written, although a reader
  might expect otherwise:
  - Backward growth from offset 0 sends a zero-length request `[0, 0)`.
  - The restart recursion has no retry cap.
  - The baseline `N - (2048 - 1)` can be an unmeasured length that
    overflows. See Findings.
- A window edge is a code-unit offset. It can fall between the two halves of
  a surrogate pair, as it can in the source.
- `Pagination.Paginate` uses the corrected search, `Trim.SearchCorrected`.
  `Trim.Search` models the search exactly as written.

## Model

| member | source | states |
|---|---|---|
| Annotations.Filter | src/public/js/activities/readTextActivity.js:144-146 | The filtered list keeps the original order. It holds only annotations the criterion accepts, and every accepted annotation appears as often as in the input. |
| Annotations.FilterIsUnique | src/public/js/activities/readTextActivity.js:161-162 | Any list that meets the filter description (order kept, only accepted annotations, accepted ones with full multiplicity) is exactly the `Filter` result. |
| Buffers.Retrieve | src/public/js/activities/readTextActivity.js:10-15 | The service returns the document stretch starting at the requested offset. It is the full requested length when the range lies inside the document. Otherwise it is cut short exactly at the document end. |
| Fetch.MergeAnnotations | src/public/js/activities/readTextActivity.js:59-73 | If the buffer had no text, the chunk's list is taken verbatim. Otherwise the buffer's list is kept unchanged and in order, followed by exactly the chunk annotations the de-duplication criterion accepts, in chunk order. |
| Fetch.ForwardStep | src/public/js/activities/readTextActivity.js:55-76 | Forward growth keeps the offset and appends, on the right, the document text that starts at the buffer end. It adds at most one chunk, and exactly one when the document has that much left. The boundary flag is set exactly when the chunk came back short, and then the document end has been reached. Only chunk annotations that start after the previous end are added. The buffer stays a stretch of the document. |
| Fetch.BackwardRange | src/public/js/activities/readTextActivity.js:78-82 | The backward request ends exactly at the buffer offset and asks for at most one chunk. It starts at 0 exactly when the offset is at most one chunk, and otherwise it asks for a full chunk. It never starts below 0, and from offset 0 it is the empty range. |
| Fetch.BackwardStep | src/public/js/activities/readTextActivity.js:78-101 | Backward growth moves the offset to the start of the requested range and prepends exactly the text the document returns for that range, also when the buffer starts past the document end. The old text stays a suffix. The buffer end is preserved whenever the buffer started inside the document. The boundary is set exactly when the new offset is 0. Only chunk annotations that end before the previous offset are added. |
| Fetch.RunIsUnique | src/public/js/activities/readTextActivity.js:50-105 | Two runs of the recursion from the same first state, the shorter of which ends on a stopped state, are the same run: the recursion's result is determined by where it starts. |
| Fetch.FetchOnce | src/public/js/activities/readTextActivity.js:50-105 | One round of the recursion from a state that has not stopped keeps the growth shape, records the step in the run, and strictly reduces what is left to grow, so growth ends. |
| Fetch.Grow | src/public/js/activities/readTextActivity.js:50-105 | Growth stops only once the buffer no longer fits or the boundary has been reached (`StopGrowing`). The run it returns starts from the empty buffer at the requested offset, each later state is the growth step applied to the one before, taken only because that state had not stopped, and the run ends on the result; so the result, text and annotation lists alike, is the one the recursion builds. Forwards, the offset stays at the start, and a boundary means the document end was reached. Backwards, the end stays at the start when the requested offset lies inside the document, and a boundary means offset 0. The buffer is always a stretch of the document. The buffer before the last fetch fitted, and the last chunk added at most 2048 code units to it (`GrowthShape`). |
| Trim.Candidate | src/public/js/activities/readTextActivity.js:116-125 | Forwards, the candidate is a prefix of the requested length at the same offset. Backwards, it is a suffix, its offset advanced by the code units removed, so it ends where the buffer ends. Negative lengths give empty text. Typography passes through and semantics is empty. |
| Trim.CandidateIsSpan | src/public/js/activities/readTextActivity.js:116-125 | A candidate cut from a stretch of the document is itself a stretch of the document at its own offset. |
| Trim.SameTextSameFit | src/public/js/activities/readTextActivity.js:107-112 | For a renderer meeting `ShrinkKeepsFit`, whether a buffer fits depends on its text alone. |
| Trim.ShrinkKeepsFitIsDownwardClosed | src/public/js/activities/readTextActivity.js:107-125 | For a renderer meeting `ShrinkKeepsFit`, fitting is monotone in the candidate length, forwards and backwards, over any range: the precondition under which the searches below find the longest fitting length. |
| Trim.LongestFittingIsGreatest | src/public/js/activities/readTextActivity.js:107-112 | The reference answer for "the text exactly fits" lies in the range. It fits, or it is the lowest length when nothing fits. No longer candidate in the range fits. |
| Trim.GreatestIsLongestFitting | src/public/js/activities/readTextActivity.js:107-112 | Any length that fits (or is the lowest), with no longer candidate in the range fitting, equals the reference answer. |
| Trim.HalvingStep | src/public/js/activities/readTextActivity.js:130-141 | One round keeps the loop's bracket. The kept length fits or is the baseline, and the length one new step above it overflows or lies past the range. The probes so far, followed by the rest of the search, are still the reference sequence `ProbeTrace`. Each probe fits exactly when it is at most the kept length. |
| Trim.Halve | src/public/js/activities/readTextActivity.js:127-142 | The loop measures exactly log2(chunk) lengths, and they are the reference probe sequence `ProbeTrace`: each probe is the length kept so far plus half the current step, and the kept length moves up to a probe exactly when that probe fits. Every probe lies above the baseline and at most `base + chunk - 1`, and a probe fits exactly when it is at most the result. The result fits unless it is the unmeasured baseline, and one more overflows. If fitting is monotone in length, the result is the longest fitting length in the range. |
| Trim.Search | src/public/js/activities/readTextActivity.js:127-142 | With the source's baseline `N - 2047`, the 11 measured lengths are the reference probe sequence, the first at `N - 2047 + 1024`. All lie in `(N - 2047, N]`, and one fits exactly when it is at most the result. The result fits unless it equals the baseline, and one more overflows. Under monotone fitting it is the longest fitting length in `[N - 2047, N]`. |
| Trim.BaselineOverflow | src/public/js/activities/readTextActivity.js:127-142 | Take a page that holds exactly `capacity` code units and a buffer that overshot it by a full chunk. The renderer meets `ShrinkKeepsFit` and fitting is monotone, yet the source's search must return `capacity + 1`, which does not fit, while `capacity` would. |
| Trim.HalveBelowTop | src/public/js/activities/readTextActivity.js:127-142 | Trying the top of `[base, base + chunk]` first and halving below it only when the top overflows gives a result in the range that fits unless it is the baseline, with one more overflowing. Under monotone fitting it is the longest fitting length of the whole range. |
| Trim.SearchCorrected | src/public/js/activities/readTextActivity.js:127-142 | Searching `[N - 2048, N]`, the result fits whenever the pre-overflow length `N - 2048` fits. One more overflows. Under monotone fitting it is the longest fitting length. |
| Trim.PreOverflowFits | src/public/js/activities/readTextActivity.js:50-105 | For a renderer meeting `ShrinkKeepsFit`, the candidate of length `N - 2048` fits once growth has stopped, because the buffer before the last fetch fitted and the last chunk added at most 2048 code units on the growth side. |
| Trim.Finalise | src/public/js/activities/readTextActivity.js:143-165 | A backward result at offset 0 restarts forwards from 0, and only then is there a forward restart. A forward result of length 0 restarts backwards from the same offset, and only then is there a backward restart. Anything else commits the candidate. Both annotation lists are filtered from the untrimmed buffer by inclusive overlap with the window, order and multiplicity kept. |
| Trim.WindowFits | src/public/js/activities/readTextActivity.js:143-165 | For a renderer meeting `ShrinkKeepsFit`, a committed window fits whenever the candidate it was cut from fits, although its annotations are filtered and the measured candidate's were not. |
| Trim.OneUnmeasuredCharacter | src/public/js/activities/readTextActivity.js:127-165 | On a view where only the empty text fits, the source's search applied forwards to a buffer of exactly one chunk returns 1. `Finalise` then commits a one-code-unit window that does not fit, instead of restarting. |
| Pagination.Paginate | src/public/js/activities/readTextActivity.js:41-176 | The call grows a buffer by a run of the `fetch` recursion from the empty buffer at the requested offset, stopped as the source stops it. A committed window is a stretch of the document cut from that buffer: a prefix forwards, a suffix backwards, and its typography and semantics are the buffer's lists filtered to annotations overlapping the window, bounds inclusive, order and multiplicity kept. Forwards, a commit starts at the requested offset and is non-empty, and a restart goes backwards from that offset. Backwards, a restart goes forwards from 0, and a commit has a positive offset. When the requested offset lies inside the document, a backward commit ends there unless it is an empty window past it. If the renderer meets `ShrinkKeepsFit` and the empty page at the requested offset fits, the page fits and fills the view. A committed window fits. Forwards, it reaches the document end or one more code unit overflows, and a restart means not even one code unit fits. Backwards, when the requested offset lies inside the document, a commit ends exactly there and one more code unit before it overflows, and a restart means the whole text before the requested offset fits. |
| Pagination.DecisionShape | src/public/js/activities/readTextActivity.js:143-165 | For any length the search can settle on, the decision on a grown buffer has the shape of `Paginate`'s contract. A commit is a stretch of the document cut from the buffer, with the buffer's annotation lists filtered to the window. Forwards, it starts at the requested offset. Backwards, it ends there, and a restart goes forwards from 0. |
| Pagination.FillsForward | src/public/js/activities/readTextActivity.js:127-158 | Forwards, on a renderer meeting `ShrinkKeepsFit` on which the empty page fits, the corrected search's decision fills the view: a commit reaches the document end or one more code unit overflows, and a restart means not even one code unit fits. |
| Pagination.FillsBackward | src/public/js/activities/readTextActivity.js:127-158 | Backwards, on the same renderer, a commit ends exactly at the requested offset with a positive offset, one more code unit before it overflows, and a restart from 0 happens only when all the text before the requested offset fits. |
| Pagination.NextPage | src/public/js/activities/readTextActivity.js:228-231 | The next page starts exactly where the current page ends and is non-empty. Otherwise the call restarts backwards from that point. On a renderer meeting `ShrinkKeepsFit` on which the empty page fits, the next page fits, and it reaches the document end or one more code unit would overflow; a restart means not even one code unit fits there. |
| Pagination.PreviousPage | src/public/js/activities/readTextActivity.js:223-226 | Any restart goes forwards from 0. A committed previous page is a stretch of the document with a positive offset. When the current page starts inside the document, it ends exactly where the current page starts, unless it is an empty window committed past that point. On a renderer meeting `ShrinkKeepsFit` on which the empty page fits, it always ends there, fits, and one more code unit before it would overflow; a restart means the whole text before the current page fits. |
| Pagination.Refill | src/public/js/activities/readTextActivity.js:212-214 | A refill after a resize starts at the current page's offset and is non-empty, or restarts backwards from that offset. On a renderer meeting `ShrinkKeepsFit` on which the empty page fits, the refilled page fits and reaches the document end or one more code unit would overflow. |
| Pagination.ForwardThenBack | src/public/js/activities/readTextActivity.js:223-231 | When the forward request commits, the original page ended inside the document. When both requests commit and the back page is non-empty, it ends where the original page ended. A back restart goes forwards from 0. When the forward request restarts, no back request is made and that restart stands. On a renderer meeting `ShrinkKeepsFit` on which the empty page fits, every committed back page ends where the original page ended, and a back restart means the whole text before that point fits on one page. |

## Left out

- `retrieveText` and `$.getJSON` (network I/O) become the `Source` oracle. Transport failures are not modelled. Which annotations the server returns for a range is left uninterpreted, because the server is not part of this model.
- The asynchronous callback chain `fetch` → `retrieveText` → `fetch` is modelled as a sequential loop.
- `textus.markupText` and `measure` (HTML and pixel heights) are the `fits` predicate. No floating point is modelled.
- The restart recursion at lines 153 and 156 is modelled as a single `Restart` decision. Termination of the whole recursion is not modelled, and it need not terminate. With the source's search, a forward restart needs the baseline `N - 2047` to be at most 0. So the ping-pong (forwards from 0 restarts backwards from 0, whose empty result restarts forwards from 0) needs a document shorter than 2048 code units. On a longer document where not even one code unit fits, the source commits one unmeasured code unit instead (`Trim.OneUnmeasuredCharacter`). With the corrected search, growth from an empty page that fits stops after one chunk, so the ping-pong can happen on a document of any length.
- `models.textModel.set`, `TextView`, `TextFooterView`, the selection alert, router `navigate`, `stop`, the unused `cachedHTML` field and all `console.log` tracing are UI, state plumbing and logging.
- Pagination.Paginate: claims that a committed window fits and fills the view only for a renderer meeting `ShrinkKeepsFit` on which the empty page fits. The search measures candidates with unfiltered typography and no semantics, while the committed window carries filtered annotations. The hypothesis that fitting depends on the text alone is what bridges the two.
- Text is modelled as UTF-16 code units, as JavaScript counts them. The markup and the renderer see characters, which are not modelled.
- ForwardThenBack: on an arbitrary renderer it promises only that a non-empty committed back page ends where the original page ended. An empty back window committed past that point, or a back restart from 0, is possible there, and the round trip is only guaranteed on a renderer meeting `ShrinkKeepsFit` on which the empty page fits.
- Fetch.Grow: backwards from an offset past the document end, the model does not state where the grown buffer ends. Growth there walks down in full chunks until it meets the document, and the buffer then ends at the document end rather than at the requested offset. `Pagination.Paginate` and `Pagination.PreviousPage` inherit this: their backward end and fill clauses need the requested offset to lie inside the document.
- Trim.Candidate: requires `length <= |data.text|`, which every call site satisfies. The backward offset for a longer length would fall below the buffer offset.

## Findings

| source | as written | input that shows it | evidently intended | confidence | as-written member | corrected member |
|---|---|---|---|---|---|---|
| src/public/js/activities/readTextActivity.js:127-142 | The search starts from the baseline `N - (2048 - 1)` and accepts it without measuring it. Growth can overshoot the last fitting buffer by a full 2048-code-unit chunk, so the baseline can be one code unit past the last length known to fit. | Take a document of at least 4096 code units, paginated forwards from 0, on a view that holds exactly 2048 code units. Growth stops at `N = 4096`. All 11 probes (3073, 2561, ..., 2050) overflow, and the window of 2049 code units is committed, which overflows the view. On a view where only the empty text fits and a document of at least 2048 code units, growth stops at `N = 2048`, every probe overflows, and one unmeasured code unit is committed instead of a restart. | For a renderer meeting `ShrinkKeepsFit` on which the empty page fits, the committed window fits. The search covers `[N - 2048, N]`, with the whole buffer tried first. | medium; not executed | Trim.Search, Trim.BaselineOverflow, Trim.OneUnmeasuredCharacter | Trim.SearchCorrected, Trim.PreOverflowFits, Pagination.Paginate |

=== FILE: annotations.dfy ===
/** Typographic and semantic annotations, and the three selection rules the
    pagination engine applies to annotation lists: the forward and backward
    de-duplication rules used while chunks are stitched together, and the
    inclusive-overlap rule used when a window is committed. */
module Annotations {

  /** A span over document-absolute code-unit offsets. `kind` stands for the
      kind-specific fields (italic, entity, ...) the engine never inspects. */
  datatype Annotation = Annotation(start: int, end: int, kind: string)

  /** The predicates the engine filters annotation lists with. */
  datatype Criterion =
    | StartsAfter(pos: int)       // forward de-duplication: start > previous buffer end
    | EndsBefore(pos: int)        // backward de-duplication: end < previous buffer start
    | Overlaps(lo: int, hi: int)  // commit filter: end >= lo and start <= hi, both inclusive

  predicate Keeps(c: Criterion, a: Annotation) {
    match c
    case StartsAfter(pos) => a.start > pos
    case EndsBefore(pos) => a.end < pos
    case Overlaps(lo, hi) => a.end >= lo && a.start <= hi
  }

  /** `r` can be obtained from `s` by deleting elements (greedy matching). */
  ghost predicate IsSubsequence(r: seq<Annotation>, s: seq<Annotation>)
    decreases |s|
  {
    if |r| == 0 then true
    else if |s| == 0 then false
    else if r[0] == s[0] then IsSubsequence(r[1..], s[1..])
    else IsSubsequence(r, s[1..])
  }

  /** `r` is `s` with exactly the elements `c` rejects removed: order is kept,
      nothing rejected survives, and every kept element keeps its multiplicity. */
  ghost predicate IsFilterOf(r: seq<Annotation>, s: seq<Annotation>, c: Criterion) {
    && IsSubsequence(r, s)
    && (forall a :: a in r ==> Keeps(c, a))
    && (forall a :: Keeps(c, a) ==> multiset(r)[a] == multiset(s)[a])
  }

  /** `r` is the list `held`, unchanged and in order, followed by the elements
      of `incoming` that `c` keeps. */
  ghost predicate Extends(r: seq<Annotation>, held: seq<Annotation>, incoming: seq<Annotation>, c: Criterion) {
    && |held| <= |r|
    && r[..|held|] == held
    && IsFilterOf(r[|held|..], incoming, c)
  }

  /** Array.prototype.filter with one of the engine's criteria. */
  function Filter(s: seq<Annotation>, c: Criterion): (r: seq<Annotation>)
    ensures IsFilterOf(r, s, c)
    decreases |s|
  {
    if |s| == 0 then []
    else
      var rest := Filter(s[1..], c);
      assert s == [s[0]] + s[1..];
      if Keeps(c, s[0]) then
        assert ([s[0]] + rest)[1..] == rest;
        [s[0]] + rest
      else
        rest
  }

  lemma {:induction false} SubsequenceMultiset(r: seq<Annotation>, s: seq<Annotation>)
    requires IsSubsequence(r, s)
    ensures multiset(r) <= multiset(s)
    decreases |s|
  {
    if |r| == 0 {
    } else if r[0] == s[0] {
      SubsequenceMultiset(r[1..], s[1..]);
      assert r == [r[0]] + r[1..];
      assert s == [s[0]] + s[1..];
    } else {
      SubsequenceMultiset(r, s[1..]);
      assert s == [s[0]] + s[1..];
    }
  }

  /** The characterisation `IsFilterOf` pins the list down completely: any
      list satisfying it is the one `Filter` computes. */
  lemma {:induction false} FilterIsUnique(r: seq<Annotation>, s: seq<Annotation>, c: Criterion)
    requires IsFilterOf(r, s, c)
    ensures r == Filter(s, c)
    decreases |s|
  {
    if |s| == 0 {
      assert |r| == 0;
    } else {
      var x := s[0];
      assert s == [x] + s[1..];
      if Keeps(c, x) {
        if |r| == 0 || r[0] != x {
          SubsequenceMultiset(r, s[1..]);
          assert false;
        }
        assert r == [x] + r[1..];
        assert multiset(r) == multiset{x} + multiset(r[1..]);
        assert IsFilterOf(r[1..], s[1..], c);
        FilterIsUnique(r[1..], s[1..], c);
      } else {
        assert IsFilterOf(r, s[1..], c);
        FilterIsUnique(r, s[1..], c);
      }
    }
  }
}

=== FILE: buffers.dfy ===
/** The engine's data model: the growing window buffer, the chunk the remote
    text service returns, and the service itself as a document oracle. */
module Buffers {
  import opened Annotations

  /** Code units requested per call to the text service (the source's
      `textChunkSize`). The halving search relies on it being a power of two. */
  const ChunkSize: nat := 2048

  function Pow2(k: nat): (p: nat)
    ensures p >= 1
  {
    if k == 0 then 1 else 2 * Pow2(k - 1)
  }

  lemma ChunkSizeIsPowerOfTwo()
    ensures ChunkSize == Pow2(11)
  {
  }

  /** A UTF-16 code unit: JavaScript's `length` and `substring` count these,
      so a character outside the Basic Multilingual Plane is two of them. */
  type CodeUnit = bv16

  /** Text as JavaScript sees it: a sequence of code units. */
  type Text = seq<CodeUnit>

  /** `{offset, text, typography, semantics}`: `offset` is the
      document-absolute index of `text[0]`. */
  datatype Buffer = Buffer(offset: nat, text: Text, typography: seq<Annotation>, semantics: seq<Annotation>)

  /** Document-absolute index just past the buffer's last code unit. */
  function End(b: Buffer): nat {
    b.offset + |b.text|
  }

  /** What one request to the text service yields. */
  datatype Chunk = Chunk(text: Text, typography: seq<Annotation>, semantics: seq<Annotation>)

  /** The remote text service: the document text, and the annotation lists it
      returns for a requested range `[start, end)`. Which annotations the
      service selects for a range is not visible to the engine, so it is left
      uninterpreted. */
  datatype Source = Source(
    text: Text,
    typographyIn: (nat, nat) -> seq<Annotation>,
    semanticsIn: (nat, nat) -> seq<Annotation>)

  /** `text` is the contiguous stretch of `doc` that starts at `offset`
      (the empty text is a stretch of any document at any offset). */
  predicate IsSpan(doc: Text, offset: nat, text: Text) {
    |text| == 0 || (offset + |text| <= |doc| && doc[offset..offset + |text|] == text)
  }

  predicate IsSuffix(s: Text, t: Text) {
    |s| <= |t| && t[|t| - |s|..] == s
  }

  /** `retrieveText(offset, length)`: the document code units of
      `[start, start + length)`, cut short at the end of the document. */
  function Retrieve(src: Source, start: nat, length: nat): (c: Chunk)
    ensures IsSpan(src.text, start, c.text)
    ensures |c.text| <= length
    ensures start + length <= |src.text| ==> |c.text| == length
    ensures start + length > |src.text| ==> start + |c.text| >= |src.text|
    ensures c.typography == src.typographyIn(start, start + length)
    ensures c.semantics == src.semanticsIn(start, start + length)
  {
    var lo := if start <= |src.text| then start else |src.text|;
    var hi := if start + length <= |src.text| then start + length else |src.text|;
    Chunk(src.text[lo..hi], src.typographyIn(start, start + length), src.semanticsIn(start, start + length))
  }

  /** Two adjacent stretches of a document form one stretch. */
  lemma SpanConcat(doc: Text, offset: nat, s: Text, t: Text)
    ensures IsSpan(doc, offset, s) && IsSpan(doc, offset + |s|, t) ==> IsSpan(doc, offset, s + t)
  {
    if IsSpan(doc, offset, s) && IsSpan(doc, offset + |s|, t) && |s| > 0 && |t| > 0 {
      assert doc[offset..offset + |s| + |t|] == doc[offset..offset + |s|] + doc[offset + |s|..offset + |s| + |t|];
    }
  }

  /** A prefix of a stretch is a stretch at the same offset; a suffix is a
      stretch ending at the same place. */
  lemma SpanPrefixSuffix(doc: Text, offset: nat, s: Text, k: nat)
    requires IsSpan(doc, offset, s)
    requires k <= |s|
    ensures IsSpan(doc, offset, s[..k])
    ensures IsSpan(doc, offset + (|s| - k), s[|s| - k..])
  {
    if k > 0 {
      assert doc[offset..offset + k] == doc[offset..offset + |s|][..k];
      assert doc[offset + (|s| - k)..offset + |s|] == doc[offset..offset + |s|][|s| - k..];
    }
  }
}

=== FILE: fetch.dfy ===
/** The chunked fetcher inside `updateTextAsync`: one growth step in each
    direction, and the growth loop that alternates measuring and fetching
    until the buffer overflows the target height or meets a document
    boundary. The asynchronous callback chain of the source is a loop here. */
module Fetch {
  import opened Annotations
  import opened Buffers

  /** A grown buffer, and whether the growth side's document boundary has
      been reached (the source's `textBoundaryReached`). */
  datatype Growth = Growth(buffer: Buffer, boundary: bool)

  /** A request to the text service: `length` code units from `start`. */
  datatype Range = Range(start: nat, length: nat)

  /** How a chunk's annotation lists were stitched onto a buffer: verbatim
      when the buffer held no text yet, otherwise the buffer's lists kept as
      they were, followed by the chunk annotations `keep` admits. */
  ghost predicate MergedFrom(r: Buffer, b: Buffer, c: Chunk, keep: Criterion) {
    if b.text == [] then
      r.typography == c.typography && r.semantics == c.semantics
    else
      Extends(r.typography, b.typography, c.typography, keep)
      && Extends(r.semantics, b.semantics, c.semantics, keep)
  }

  /** One annotation list after a chunk is stitched in. */
  function MergeAnnotations(bufferEmpty: bool, held: seq<Annotation>, incoming: seq<Annotation>, keep: Criterion)
    : (r: seq<Annotation>)
    ensures bufferEmpty ==> r == incoming
    ensures !bufferEmpty ==> Extends(r, held, incoming, keep)
  {
    if bufferEmpty then incoming
    else
      var extra := Filter(incoming, keep);
      assert (held + extra)[..|held|] == held;
      assert (held + extra)[|held|..] == extra;
      held + extra
  }

  /** Growing forwards: request the chunk that starts at the buffer's end and
      append it; the boundary is reached when the chunk comes back short. */
  function ForwardStep(src: Source, b: Buffer): (g: Growth)
    ensures g.buffer.offset == b.offset
    ensures b.text <= g.buffer.text
    ensures IsSpan(src.text, End(b), g.buffer.text[|b.text|..])
    ensures |g.buffer.text| <= |b.text| + ChunkSize
    ensures End(b) + ChunkSize <= |src.text| ==> |g.buffer.text| == |b.text| + ChunkSize
    ensures g.boundary <==> |g.buffer.text| < |b.text| + ChunkSize
    ensures g.boundary ==> End(g.buffer) >= |src.text|
    ensures !g.boundary ==> End(g.buffer) <= |src.text|
    ensures IsSpan(src.text, b.offset, b.text) ==> IsSpan(src.text, g.buffer.offset, g.buffer.text)
    ensures MergedFrom(g.buffer, b, Retrieve(src, End(b), ChunkSize), StartsAfter(End(b)))
  {
    var c := Retrieve(src, End(b), ChunkSize);
    var empty := b.text == [];
    var keep := StartsAfter(End(b));
    var grown := Buffer(b.offset, b.text + c.text,
                        MergeAnnotations(empty, b.typography, c.typography, keep),
                        MergeAnnotations(empty, b.semantics, c.semantics, keep));
    assert grown.text[|b.text|..] == c.text;
    SpanConcat(src.text, b.offset, b.text, c.text);
    Growth(grown, |c.text| < ChunkSize)
  }

  /** The range requested when growing backwards: the chunk that ends at the
      buffer's offset, clamped so that it never starts before 0. */
  function BackwardRange(b: Buffer): (r: Range)
    ensures r.start + r.length == b.offset
    ensures r.length <= ChunkSize
    ensures r.start == 0 <==> b.offset <= ChunkSize
    ensures r.start > 0 ==> r.length == ChunkSize
  {
    var start := if b.offset >= ChunkSize then b.offset - ChunkSize else 0;
    Range(start, b.offset - start)
  }

  /** Growing backwards: request `BackwardRange`, prepend the chunk and move
      the offset to the range start; the boundary is reached exactly when
      that start is 0, whatever the service returns. */
  function BackwardStep(src: Source, b: Buffer): (g: Growth)
    ensures g.buffer.offset == BackwardRange(b).start
    ensures g.boundary <==> g.buffer.offset == 0
    ensures IsSuffix(b.text, g.buffer.text)
    ensures b.offset <= |src.text| ==> End(g.buffer) == End(b)
    ensures |g.buffer.text|
              == |Retrieve(src, BackwardRange(b).start, BackwardRange(b).length).text| + |b.text|
    ensures IsSpan(src.text, b.offset, b.text) ==> IsSpan(src.text, g.buffer.offset, g.buffer.text)
    ensures MergedFrom(g.buffer, b, Retrieve(src, BackwardRange(b).start, BackwardRange(b).length),
                       EndsBefore(b.offset))
  {
    var r := BackwardRange(b);
    var c := Retrieve(src, r.start, r.length);
    var empty := b.text == [];
    var keep := EndsBefore(b.offset);
    var grown := Buffer(r.start, c.text + b.text,
                        MergeAnnotations(empty, b.typography, c.typography, keep),
                        MergeAnnotations(empty, b.semantics, c.semantics, keep));
    assert grown.text[|grown.text| - |b.text|..] == b.text;
    SpanConcat(src.text, r.start, c.text, b.text);
    Growth(grown, r.start == 0)
  }

  /** The growth phase stops, and trimming begins, once the buffer no longer
      fits the target height or the boundary has been reached. */
  predicate StopGrowing(fits: Buffer -> bool, b: Buffer, boundary: bool) {
    !fits(b) || boundary
  }

  /** The growth step in the call's direction, as a function of the buffer. */
  function StepIn(src: Source, forwards: bool): (step: Buffer -> Growth)
    ensures forall b :: forwards ==> step(b) == ForwardStep(src, b)
    ensures forall b :: !forwards ==> step(b) == BackwardStep(src, b)
  {
    b => if forwards then ForwardStep(src, b) else BackwardStep(src, b)
  }

  /** `trace` is a run of the `fetch` recursion: every state after the first
      is `step` applied to the state before it, taken because that
      state had not yet stopped growing. */
  ghost predicate IsRun(step: Buffer -> Growth, fits: Buffer -> bool, trace: seq<Growth>)
    decreases |trace|
  {
    && |trace| >= 1
    && (|trace| > 1 ==>
          && IsRun(step, fits, trace[..|trace| - 1])
          && !StopGrowing(fits, trace[|trace| - 2].buffer, trace[|trace| - 2].boundary)
          && trace[|trace| - 1] == step(trace[|trace| - 2].buffer))
  }

  /** `trace` is a run of the `fetch` recursion for a call from `start` in
      direction `forwards`: it starts from the empty buffer at `start`, ends
      on the state `(b, boundary)`, and `last` is the buffer one step before. */
  ghost predicate RunFrom(src: Source, start: nat, forwards: bool, fits: Buffer -> bool,
                          trace: seq<Growth>, b: Buffer, boundary: bool, last: Buffer) {
    && IsRun(StepIn(src, forwards), fits, trace)
    && trace[0] == Growth(Buffer(start, [], [], []), false)
    && trace[|trace| - 1] == Growth(b, boundary)
    && (|trace| > 1 ==> last == trace[|trace| - 2].buffer)
  }

  /** Appending the next step to a run that has not stopped gives a run,
      with the same first state. */
  lemma RunExtends(step: Buffer -> Growth, fits: Buffer -> bool, trace: seq<Growth>, g: Growth)
    requires IsRun(step, fits, trace)
    requires !StopGrowing(fits, trace[|trace| - 1].buffer, trace[|trace| - 1].boundary)
    requires g == step(trace[|trace| - 1].buffer)
    ensures IsRun(step, fits, trace + [g])
    ensures (trace + [g])[0] == trace[0]
    ensures (trace + [g])[|trace| - 1] == trace[|trace| - 1]
  {
    assert (trace + [g])[..|trace|] == trace;
  }

  /** Every prefix of a run is a run, and a state that is not the last one
      had not stopped growing. */
  lemma {:induction false} RunPrefix(step: Buffer -> Growth, fits: Buffer -> bool, trace: seq<Growth>, k: nat)
    requires IsRun(step, fits, trace)
    requires 1 <= k <= |trace|
    ensures IsRun(step, fits, trace[..k])
    ensures k < |trace| ==> !StopGrowing(fits, trace[k - 1].buffer, trace[k - 1].boundary)
    decreases |trace|
  {
    if k < |trace| {
      var u := trace[..|trace| - 1];
      assert u[..k] == trace[..k];
      if k < |u| {
        RunPrefix(step, fits, u, k);
        assert u[k - 1] == trace[k - 1];
      }
    } else {
      assert trace[..k] == trace;
    }
  }

  /** Two runs from the same first state that both end on a stopped state
      are the same run: the `fetch` recursion is deterministic. */
  lemma RunIsUnique(step: Buffer -> Growth, fits: Buffer -> bool, s: seq<Growth>, t: seq<Growth>)
    requires IsRun(step, fits, s) && IsRun(step, fits, t)
    requires s[0] == t[0] && |s| <= |t|
    requires StopGrowing(fits, s[|s| - 1].buffer, s[|s| - 1].boundary)
    ensures s == t
  {
    RunPrefix(step, fits, t, |s|);
    RunIsPrefix(step, fits, s, t[..|s|]);
  }

  /** Runs of the same length from the same first state agree. */
  lemma {:induction false} RunIsPrefix(step: Buffer -> Growth, fits: Buffer -> bool, s: seq<Growth>, t: seq<Growth>)
    requires IsRun(step, fits, s) && IsRun(step, fits, t)
    requires s[0] == t[0] && |s| == |t|
    ensures s == t
    decreases |t|
  {
    if |s| > 1 {
      RunIsPrefix(step, fits, s[..|s| - 1], t[..|t| - 1]);
      assert s[..|s| - 1][|s| - 2] == s[|s| - 2];
      assert t[..|t| - 1][|t| - 2] == t[|t| - 2];
      assert s == s[..|s| - 1] + [s[|s| - 1]];
      assert t == t[..|t| - 1] + [t[|t| - 1]];
    }
  }

  /** What the `fetch` recursion keeps true of its state: the buffer is the
      stretch of the document grown from `start` in the call's direction, and
      once it holds text, `last` is the buffer before the latest fetch, which
      fitted and which the latest chunk extended on the growth side. */
  ghost predicate GrowthShape(src: Source, start: nat, forwards: bool, fits: Buffer -> bool,
                              b: Buffer, boundary: bool, last: Buffer) {
    && (|b.text| > 0 ==> fits(last) && |b.text| <= |last.text| + ChunkSize)
    && (|b.text| > 0 && forwards ==> last.text <= b.text)
    && (|b.text| > 0 && !forwards ==> IsSuffix(last.text, b.text))
    && IsSpan(src.text, b.offset, b.text)
    && (forwards ==> b.offset == start)
    && (forwards && boundary ==> End(b) >= |src.text|)
    && (forwards && !boundary && |b.text| > 0 ==> End(b) <= |src.text|)
    && (!forwards ==> b.offset <= start)
    && (!forwards && boundary ==> b.offset == 0)
    && (!forwards && start <= |src.text| ==> End(b) == start)
  }

  /** How far growth can still go: nothing once the boundary is reached,
      otherwise one more than the code units left on the growth side. */
  function Remaining(src: Source, forwards: bool, b: Buffer, boundary: bool): nat {
    if boundary then 0
    else if !forwards then 1 + b.offset
    else if End(b) <= |src.text| then 1 + (|src.text| - End(b))
    else 1
  }

  /** One fetch keeps the shape and brings growth closer to its end. */
  lemma GrowthRound(src: Source, start: nat, forwards: bool, fits: Buffer -> bool,
                    b: Buffer, boundary: bool, last: Buffer, g: Growth)
    requires GrowthShape(src, start, forwards, fits, b, boundary, last)
    requires !StopGrowing(fits, b, boundary)
    requires g == if forwards then ForwardStep(src, b) else BackwardStep(src, b)
    ensures GrowthShape(src, start, forwards, fits, g.buffer, g.boundary, b)
    ensures Remaining(src, forwards, g.buffer, g.boundary) < Remaining(src, forwards, b, boundary)
  {
  }

  /** A run that has not stopped, extended by its next step, is a run ending
      on that step. */
  lemma RunFromExtends(src: Source, start: nat, forwards: bool, fits: Buffer -> bool,
                       trace: seq<Growth>, b: Buffer, boundary: bool, last: Buffer, g: Growth)
    requires RunFrom(src, start, forwards, fits, trace, b, boundary, last)
    requires !StopGrowing(fits, b, boundary)
    requires g == StepIn(src, forwards)(b)
    ensures RunFrom(src, start, forwards, fits, trace + [g], g.buffer, g.boundary, b)
  {
    RunExtends(StepIn(src, forwards), fits, trace, g);
  }

  /** A fetch round, stated on the new state: the shape is kept, growth gets
      closer to its end, and the run gains the step just taken. */
  lemma FetchRound(src: Source, start: nat, forwards: bool, fits: Buffer -> bool,
                   b: Buffer, boundary: bool, last: Buffer, trace: seq<Growth>,
                   b': Buffer, boundary': bool, last': Buffer, trace': seq<Growth>)
    requires GrowthShape(src, start, forwards, fits, b, boundary, last)
    requires !StopGrowing(fits, b, boundary)
    requires RunFrom(src, start, forwards, fits, trace, b, boundary, last)
    requires Growth(b', boundary') == if forwards then ForwardStep(src, b) else BackwardStep(src, b)
    requires last' == b && trace' == trace + [Growth(b', boundary')]
    ensures GrowthShape(src, start, forwards, fits, b', boundary', last')
    ensures Remaining(src, forwards, b', boundary') < Remaining(src, forwards, b, boundary)
    ensures RunFrom(src, start, forwards, fits, trace', b', boundary', last')
  {
    var g := Growth(b', boundary');
    GrowthRound(src, start, forwards, fits, b, boundary, last, g);
    RunFromExtends(src, start, forwards, fits, trace, b, boundary, last, g);
  }

  /** One round of the `fetch` recursion: request and stitch the next chunk,
      and record the step in the run. */
  method FetchOnce(src: Source, start: nat, forwards: bool, fits: Buffer -> bool,
                   b: Buffer, boundary: bool, ghost last: Buffer, ghost trace: seq<Growth>)
    returns (b': Buffer, boundary': bool, ghost last': Buffer, ghost trace': seq<Growth>)
    requires GrowthShape(src, start, forwards, fits, b, boundary, last)
    requires !StopGrowing(fits, b, boundary)
    requires RunFrom(src, start, forwards, fits, trace, b, boundary, last)
    ensures GrowthShape(src, start, forwards, fits, b', boundary', last')
    ensures Remaining(src, forwards, b', boundary') < Remaining(src, forwards, b, boundary)
    ensures RunFrom(src, start, forwards, fits, trace', b', boundary', last')
  {
    var g := if forwards then ForwardStep(src, b) else BackwardStep(src, b);
    b', boundary' := g.buffer, g.boundary;
    last', trace' := b, trace + [g];
    FetchRound(src, start, forwards, fits, b, boundary, last, trace, b', boundary', last', trace');
  }

  /** The `fetch` recursion, from an empty buffer at `start`. `fits(b)` stands
      for `measure(markup(b)) <= height`. `trace` is the run of growth steps
      that produced the result, so the result, annotation lists included, is
      the one the recursion determines (`RunIsUnique`). `last` is the buffer
      as it was before the final fetch: it fitted, and the final chunk added
      at most `ChunkSize` code units to it, on the growth side. */
  method Grow(src: Source, start: nat, forwards: bool, fits: Buffer -> bool)
    returns (b: Buffer, boundary: bool, ghost last: Buffer, ghost trace: seq<Growth>)
    ensures StopGrowing(fits, b, boundary)
    ensures GrowthShape(src, start, forwards, fits, b, boundary, last)
    ensures RunFrom(src, start, forwards, fits, trace, b, boundary, last)
  {
    b := Buffer(start, [], [], []);
    boundary := false;
    last := b;
    trace := [Growth(b, boundary)];
    while !StopGrowing(fits, b, boundary)
      invariant GrowthShape(src, start, forwards, fits, b, boundary, last)
      invariant RunFrom(src, start, forwards, fits, trace, b, boundary, last)
      decreases Remaining(src, forwards, b, boundary)
    {
      b, boundary, last, trace := FetchOnce(src, start, forwards, fits, b, boundary, last, trace);
    }
  }
}

=== FILE: pagination.dfy ===
/** One pagination call (`updateTextAsync`) as a sequential composition of
    growth, search and decision, and the three navigation requests the
    activity issues from the current window. */
module Pagination {
  import opened Annotations
  import opened Buffers
  import Fetch
  import opened Trim

  /** One pagination call from `start` in direction `forwards`. `fits(b)`
      stands for `measure(markup(b)) <= height`. `grown` is the buffer the
      `fetch` recursion ends with and `run` the growth steps that built it;
      the committed window is cut from `grown` and carries its annotation
      lists filtered to the window. The search is the corrected one
      (`Trim.SearchCorrected`). When the renderer meets `ShrinkKeepsFit` and
      the empty page fits, a committed window fits and fills the view: one
      more code unit on the growth side would overflow it, unless the
      document ends there. */
  method Paginate(src: Source, start: nat, forwards: bool, fits: Buffer -> bool)
    returns (d: Decision, ghost grown: Buffer, ghost run: seq<Fetch.Growth>)
    ensures Fetch.IsRun(Fetch.StepIn(src, forwards), fits, run)
    ensures run[0] == Fetch.Growth(Buffer(start, [], [], []), false)
    ensures run[|run| - 1].buffer == grown && Fetch.StopGrowing(fits, grown, run[|run| - 1].boundary)
    ensures d.Commit? ==> IsSpan(src.text, d.window.offset, d.window.text)
    ensures d.Commit? ==> IsFilterOf(d.window.typography, grown.typography, Overlaps(d.window.offset, End(d.window)))
    ensures d.Commit? ==> IsFilterOf(d.window.semantics, grown.semantics, Overlaps(d.window.offset, End(d.window)))
    ensures d.Commit? && forwards ==> d.window.text <= grown.text
    ensures d.Commit? && !forwards ==> IsSuffix(d.window.text, grown.text)
    ensures forwards && d.Commit? ==> d.window.offset == start && |d.window.text| > 0
    ensures forwards && d.Restart? ==> d == Restart(start, false)
    ensures !forwards && d.Restart? ==> d == Restart(0, true)
    ensures !forwards && d.Commit? ==> d.window.offset > 0
    ensures !forwards && d.Commit? && start <= |src.text| ==>
              End(d.window) == start || (d.window.text == [] && d.window.offset > start)
    ensures ShrinkKeepsFit(fits) && fits(Buffer(start, [], [], [])) && d.Commit? ==> fits(d.window)
    ensures ShrinkKeepsFit(fits) && fits(Buffer(start, [], [], [])) && forwards ==>
              && (d.Commit? ==> (End(d.window) >= |src.text| ||
                                 !fits(Buffer(start, src.text[start..End(d.window) + 1], [], []))))
              && (d.Restart? ==> start >= |src.text| || !fits(Buffer(start, src.text[start..start + 1], [], [])))
    ensures ShrinkKeepsFit(fits) && fits(Buffer(start, [], [], [])) && !forwards && start <= |src.text| ==>
              && (d.Commit? ==> End(d.window) == start)
              && (d.Commit? ==> !fits(Buffer(d.window.offset - 1, src.text[d.window.offset - 1..start], [], [])))
              && (d.Restart? ==> fits(Buffer(0, src.text[..start], [], [])))
  {
    var data, boundary, last, trace := Fetch.Grow(src, start, forwards, fits);
    var length := SearchCorrected(data, forwards, fits);
    d := Finalise(data, forwards, length);
    grown, run := data, trace;
    DecisionShape(src, start, forwards, data, length);
    if ShrinkKeepsFit(fits) && fits(Buffer(start, [], [], [])) {
      CommittedWindowFits(data, forwards, fits, start, last, length);
      if forwards {
        FillsForward(src, start, forwards, fits, data, boundary, length, d);
      } else if start <= |src.text| {
        FillsBackward(src, start, forwards, fits, data, boundary, length, d);
      }
    }
  }

  /** What the boundary correction yields for a grown buffer `data`, whatever
      length the search settled on within its range. */
  lemma DecisionShape(src: Source, start: nat, forwards: bool, data: Buffer, length: int)
    requires IsSpan(src.text, data.offset, data.text)
    requires forwards ==> data.offset == start
    requires !forwards ==> data.offset <= start
    requires !forwards && start <= |src.text| ==> End(data) == start
    requires |data.text| - ChunkSize <= length <= |data.text|
    ensures var d := Finalise(data, forwards, length);
      && (d.Commit? ==> IsSpan(src.text, d.window.offset, d.window.text))
      && (d.Commit? ==> IsFilterOf(d.window.typography, data.typography, Overlaps(d.window.offset, End(d.window))))
      && (d.Commit? ==> IsFilterOf(d.window.semantics, data.semantics, Overlaps(d.window.offset, End(d.window))))
      && (d.Commit? && forwards ==> d.window.text <= data.text)
      && (d.Commit? && !forwards ==> IsSuffix(d.window.text, data.text))
      && (forwards && d.Commit? ==> d.window.offset == start && |d.window.text| > 0)
      && (forwards && d.Restart? ==> d == Restart(start, false))
      && (!forwards && d.Restart? ==> d == Restart(0, true))
      && (!forwards && d.Commit? ==> d.window.offset > 0)
      && (!forwards && d.Commit? && start <= |src.text| ==>
            End(d.window) == start || (d.window.text == [] && d.window.offset > start))
  {
    CandidateIsSpan(src.text, data, forwards, length);
  }

  /** Forwards, the corrected search fills the view: the committed window
      reaches the end of the document or one more code unit overflows, and
      a restart happens only when not even one code unit fits. */
  lemma FillsForward(src: Source, start: nat, forwards: bool, fits: Buffer -> bool,
                     data: Buffer, boundary: bool, length: int, d: Decision)
    requires forwards
    requires ShrinkKeepsFit(fits) && fits(Buffer(start, [], [], []))
    requires IsSpan(src.text, data.offset, data.text) && data.offset == start
    requires Fetch.StopGrowing(fits, data, boundary) && (boundary ==> End(data) >= |src.text|)
    requires |data.text| - ChunkSize <= length <= |data.text|
    requires fits(Candidate(data, forwards, length))
    requires length == |data.text| || !fits(Candidate(data, forwards, length + 1))
    requires d == Finalise(data, forwards, length)
    ensures d.Commit? ==> (End(d.window) >= |src.text| ||
                           !fits(Buffer(start, src.text[start..End(d.window) + 1], [], [])))
    ensures d.Restart? ==> start >= |src.text| || !fits(Buffer(start, src.text[start..start + 1], [], []))
  {
    if length == |data.text| {
      WholeBufferForward(src, start, fits, data, boundary);
    } else {
      ShorterThanBuffer(src, start, fits, data, true, length);
      OneMoreForward(src, start, fits, data, length);
    }
  }

  /** Forwards, when the whole grown buffer fits, growth stopped at the end
      of the document. */
  lemma WholeBufferForward(src: Source, start: nat, fits: Buffer -> bool, data: Buffer, boundary: bool)
    requires ShrinkKeepsFit(fits)
    requires data.offset == start
    requires Fetch.StopGrowing(fits, data, boundary) && (boundary ==> End(data) >= |src.text|)
    requires fits(Candidate(data, true, |data.text|))
    ensures End(data) >= |src.text|
  {
    assert data.text[..|data.text|] == data.text;
    SameTextSameFit(fits, Candidate(data, true, |data.text|), data);
  }

  /** When one code unit more than the search's result overflows, the
      result is not negative: the empty text fits. */
  lemma ShorterThanBuffer(src: Source, start: nat, fits: Buffer -> bool, data: Buffer, forwards: bool, length: int)
    requires ShrinkKeepsFit(fits) && fits(Buffer(start, [], [], []))
    requires length < |data.text|
    requires !fits(Candidate(data, forwards, length + 1))
    ensures length >= 0
  {
    if length < 0 {
      SameTextSameFit(fits, Candidate(data, forwards, length + 1), Buffer(start, [], [], []));
      assert false;
    }
  }

  /** Forwards, the candidate one code unit longer than the result is the
      document stretch from `start`, so that stretch overflows. */
  lemma OneMoreForward(src: Source, start: nat, fits: Buffer -> bool, data: Buffer, length: int)
    requires ShrinkKeepsFit(fits)
    requires IsSpan(src.text, data.offset, data.text) && data.offset == start
    requires 0 <= length < |data.text|
    requires !fits(Candidate(data, true, length + 1))
    ensures !fits(Buffer(start, src.text[start..start + length + 1], [], []))
  {
    var c := Candidate(data, true, length + 1);
    assert data.text == src.text[start..start + |data.text|];
    assert c.text == src.text[start..start + length + 1];
    SameTextSameFit(fits, c, Buffer(start, src.text[start..start + length + 1], [], []));
  }

  /** Backwards, the corrected search fills the view: the committed window
      ends at the requested offset and one more code unit before it
      overflows, and a restart from 0 happens only when the whole text up to
      the requested offset fits. */
  lemma FillsBackward(src: Source, start: nat, forwards: bool, fits: Buffer -> bool,
                      data: Buffer, boundary: bool, length: int, d: Decision)
    requires !forwards
    requires ShrinkKeepsFit(fits) && fits(Buffer(start, [], [], []))
    requires start <= |src.text|
    requires IsSpan(src.text, data.offset, data.text) && End(data) == start
    requires Fetch.StopGrowing(fits, data, boundary) && (boundary ==> data.offset == 0)
    requires |data.text| - ChunkSize <= length <= |data.text|
    requires fits(Candidate(data, forwards, length))
    requires length == |data.text| || !fits(Candidate(data, forwards, length + 1))
    requires d == Finalise(data, forwards, length)
    ensures d.Commit? ==> End(d.window) == start && d.window.offset > 0
    ensures d.Commit? ==> !fits(Buffer(d.window.offset - 1, src.text[d.window.offset - 1..start], [], []))
    ensures d.Restart? ==> fits(Buffer(0, src.text[..start], [], []))
  {
    if length == |data.text| {
      WholeBufferBackward(src, start, fits, data, boundary);
    } else {
      ShorterThanBuffer(src, start, fits, data, false, length);
      OneMoreBackward(src, start, fits, data, length);
    }
  }

  /** Backwards, when the whole grown buffer fits, growth stopped at offset
      0, and the buffer is all the text before `start`. */
  lemma WholeBufferBackward(src: Source, start: nat, fits: Buffer -> bool, data: Buffer, boundary: bool)
    requires ShrinkKeepsFit(fits)
    requires start <= |src.text|
    requires IsSpan(src.text, data.offset, data.text) && End(data) == start
    requires Fetch.StopGrowing(fits, data, boundary) && (boundary ==> data.offset == 0)
    requires fits(Candidate(data, false, |data.text|))
    ensures data.offset == 0
    ensures fits(Buffer(0, src.text[..start], [], []))
  {
    assert data.text[|data.text| - |data.text|..] == data.text;
    SameTextSameFit(fits, Candidate(data, false, |data.text|), data);
    assert data.text == src.text[..start];
    SameTextSameFit(fits, data, Buffer(0, src.text[..start], [], []));
  }

  /** Backwards, the candidate one code unit longer than the result is the
      document stretch ending at `start`, so that stretch overflows. */
  lemma OneMoreBackward(src: Source, start: nat, fits: Buffer -> bool, data: Buffer, length: int)
    requires ShrinkKeepsFit(fits)
    requires IsSpan(src.text, data.offset, data.text) && End(data) == start
    requires 0 <= length < |data.text|
    requires !fits(Candidate(data, false, length + 1))
    ensures var c := Candidate(data, false, length + 1);
      c.offset < start && !fits(Buffer(c.offset, src.text[c.offset..start], [], []))
  {
    var n := |data.text|;
    var c := Candidate(data, false, length + 1);
    assert data.text == src.text[data.offset..start];
    assert c.text == data.text[n - (length + 1)..];
    assert c.text == src.text[c.offset..start];
    SameTextSameFit(fits, c, Buffer(c.offset, src.text[c.offset..start], [], []));
  }

  /** The footer's forward button: paginate forwards from the end of the
      current window. Pages tile the document: the next page starts exactly
      where the current one ends, and on a well-behaved renderer it holds
      as much as fits. */
  method NextPage(src: Source, w: Buffer, fits: Buffer -> bool) returns (d: Decision)
    ensures d.Commit? ==> d.window.offset == End(w) && |d.window.text| > 0
    ensures d.Commit? ==> IsSpan(src.text, d.window.offset, d.window.text)
    ensures d.Restart? ==> d == Restart(End(w), false)
    ensures ShrinkKeepsFit(fits) && fits(Buffer(End(w), [], [], [])) ==>
              && (d.Commit? ==> fits(d.window))
              && (d.Commit? ==> (End(d.window) >= |src.text| ||
                                 !fits(Buffer(End(w), src.text[End(w)..End(d.window) + 1], [], []))))
              && (d.Restart? ==> End(w) >= |src.text| || !fits(Buffer(End(w), src.text[End(w)..End(w) + 1], [], [])))
  {
    ghost var grown, run;
    d, grown, run := Paginate(src, End(w), true, fits);
  }

  /** The footer's back button: paginate backwards from the offset of the
      current window. A previous page ends exactly where the current one
      starts, unless it is an empty window committed past that point; on a
      well-behaved renderer it always ends there and holds as much as fits,
      and a restart from 0 means the whole text before the window fits. */
  method PreviousPage(src: Source, w: Buffer, fits: Buffer -> bool) returns (d: Decision)
    ensures d.Restart? ==> d == Restart(0, true)
    ensures d.Commit? ==> d.window.offset > 0 && IsSpan(src.text, d.window.offset, d.window.text)
    ensures d.Commit? && w.offset <= |src.text| ==>
              End(d.window) == w.offset || (d.window.text == [] && d.window.offset > w.offset)
    ensures ShrinkKeepsFit(fits) && fits(Buffer(w.offset, [], [], [])) && w.offset <= |src.text| ==>
              && (d.Commit? ==> End(d.window) == w.offset && fits(d.window))
              && (d.Commit? ==> !fits(Buffer(d.window.offset - 1, src.text[d.window.offset - 1..w.offset], [], [])))
              && (d.Restart? ==> fits(Buffer(0, src.text[..w.offset], [], [])))
  {
    ghost var grown, run;
    d, grown, run := Paginate(src, w.offset, false, fits);
  }

  /** A resize of the text view: refill forwards from the current offset. */
  method Refill(src: Source, w: Buffer, fits: Buffer -> bool) returns (d: Decision)
    ensures d.Commit? ==> d.window.offset == w.offset && |d.window.text| > 0
    ensures d.Restart? ==> d == Restart(w.offset, false)
    ensures ShrinkKeepsFit(fits) && fits(Buffer(w.offset, [], [], [])) ==>
              && (d.Commit? ==> fits(d.window))
              && (d.Commit? ==> (End(d.window) >= |src.text| ||
                                 !fits(Buffer(w.offset, src.text[w.offset..End(d.window) + 1], [], []))))
              && (d.Restart? ==> (w.offset >= |src.text| ||
                                  !fits(Buffer(w.offset, src.text[w.offset..w.offset + 1], [], []))))
  {
    ghost var grown, run;
    d, grown, run := Paginate(src, w.offset, true, fits);
  }

  /** Forward then back: when the forward request commits, the back request
      starts where the next page starts, which is where the original page
      ended. A non-empty back page ends exactly there; on a well-behaved
      renderer every back page does, and a back restart means the whole text
      up to that point fits. When the forward request restarts instead, no
      back request is issued and that restart stands. */
  method ForwardThenBack(src: Source, w: Buffer, fits: Buffer -> bool) returns (next: Decision, back: Decision)
    ensures next.Commit? ==> End(w) < |src.text|
    ensures next.Commit? && back.Commit? && back.window.text != [] ==> End(back.window) == End(w)
    ensures next.Commit? && back.Restart? ==> back == Restart(0, true)
    ensures next.Restart? ==> back == next
    ensures ShrinkKeepsFit(fits) && fits(Buffer(End(w), [], [], [])) && next.Commit? ==>
              && (back.Commit? ==> End(back.window) == End(w))
              && (back.Restart? ==> fits(Buffer(0, src.text[..End(w)], [], [])))
  {
    next := NextPage(src, w, fits);
    if next.Commit? {
      back := PreviousPage(src, next.window, fits);
    } else {
      back := next;
    }
  }
}

=== FILE: trim.dfy ===
/** The fit-and-trim phase of `updateTextAsync`: candidate windows cut from
    the overflowing buffer (`trimData`), the halving search for the longest
    candidate that fits, and the final commit-or-restart decision. */
module Trim {
  import opened Annotations
  import opened Buffers

  /** `trimData(length)`: forwards, the first `length` code units at the same
      offset; backwards, the last `length` code units, the offset moved on by
      the number of code units removed. Typography passes through unfiltered
      and semantics is emptied. A negative `length` keeps no text, as
      `String.prototype.substring` clamps its bounds, but the backward offset
      is not clamped. Every call site has `length <= |data.text|`. */
  function Candidate(data: Buffer, forwards: bool, length: int): (c: Buffer)
    requires length <= |data.text|
    ensures |c.text| == if length < 0 then 0 else length
    ensures forwards ==> c.offset == data.offset && c.text <= data.text
    ensures !forwards ==> c.offset == data.offset + (|data.text| - length) && IsSuffix(c.text, data.text)
    ensures !forwards && length >= 0 ==> End(c) == End(data)
    ensures c.typography == data.typography && c.semantics == []
  {
    var kept := if length < 0 then 0 else length;
    if forwards then
      Buffer(data.offset, data.text[..kept], data.typography, [])
    else
      Buffer(data.offset + (|data.text| - length), data.text[|data.text| - kept..], data.typography, [])
  }

  /** A candidate cut from a stretch of the document is itself one. */
  lemma CandidateIsSpan(doc: Text, data: Buffer, forwards: bool, length: int)
    requires length <= |data.text|
    requires IsSpan(doc, data.offset, data.text)
    ensures var c := Candidate(data, forwards, length); IsSpan(doc, c.offset, c.text)
  {
    var kept := if length < 0 then 0 else length;
    SpanPrefixSuffix(doc, data.offset, data.text, kept);
  }

  /** The measurement the search performs on a length: whether the candidate
      of that length fits. No length beyond the buffer is ever measured, and
      none counts as fitting. */
  function FitsAt(data: Buffer, forwards: bool, fits: Buffer -> bool): (fitsAt: int -> bool)
    ensures forall l :: l <= |data.text| ==> (fitsAt(l) <==> fits(Candidate(data, forwards, l)))
    ensures forall l :: l > |data.text| ==> !fitsAt(l)
  {
    l => l <= |data.text| && fits(Candidate(data, forwards, l))
  }

  /** A hypothesis on the renderer: whether a buffer fits depends on its text
      alone, and cutting code units off either end of a text that fits leaves
      a text that fits. */
  ghost predicate ShrinkKeepsFit(fits: Buffer -> bool) {
    forall a: Buffer, b: Buffer {:trigger ShrinksFitting(fits, a, b)} :: ShrinksFitting(fits, a, b)
  }

  /** The renderer hypothesis for one pair of buffers: if `b` fits, so does
      `a` when its text is a prefix or a suffix of `b`'s. */
  ghost predicate ShrinksFitting(fits: Buffer -> bool, a: Buffer, b: Buffer) {
    fits(b) && (a.text <= b.text || IsSuffix(a.text, b.text)) ==> fits(a)
  }

  /** Under the renderer hypothesis, two buffers with the same text both fit
      or both overflow. */
  lemma SameTextSameFit(fits: Buffer -> bool, a: Buffer, b: Buffer)
    requires ShrinkKeepsFit(fits) && a.text == b.text
    ensures fits(a) <==> fits(b)
  {
    assert ShrinksFitting(fits, a, b) && ShrinksFitting(fits, b, a);
  }

  /** Fitting is monotone in the length over `[lo, hi]`: if a longer length
      fits, every shorter one does. */
  ghost predicate DownwardClosed(fitsAt: int -> bool, lo: int, hi: int) {
    forall a, b :: lo <= a <= b <= hi && fitsAt(b) ==> fitsAt(a)
  }

  /** Reference definition: the greatest length in `[lo, hi]` that fits,
      found by scanning down from `hi`; `lo` when none does. */
  ghost function LongestFitting(fitsAt: int -> bool, lo: int, hi: int): int
    requires lo <= hi
    decreases hi - lo
  {
    if hi == lo || fitsAt(hi) then hi
    else LongestFitting(fitsAt, lo, hi - 1)
  }

  lemma {:induction false} LongestFittingIsGreatest(fitsAt: int -> bool, lo: int, hi: int)
    requires lo <= hi
    ensures var g := LongestFitting(fitsAt, lo, hi);
      && lo <= g <= hi
      && (g == lo || fitsAt(g))
      && forall m :: g < m <= hi ==> !fitsAt(m)
    decreases hi - lo
  {
    if hi != lo && !fitsAt(hi) {
      LongestFittingIsGreatest(fitsAt, lo, hi - 1);
    }
  }

  /** Any length that fits (or is `lo`) with nothing longer up to `hi`
      fitting is the reference answer. */
  lemma GreatestIsLongestFitting(fitsAt: int -> bool, lo: int, hi: int, r: int)
    requires lo <= r <= hi
    requires r == lo || fitsAt(r)
    requires forall m :: r < m <= hi ==> !fitsAt(m)
    ensures r == LongestFitting(fitsAt, lo, hi)
  {
    LongestFittingIsGreatest(fitsAt, lo, hi);
  }

  /** Under the renderer hypothesis, fitting is monotone in the candidate
      length, in both directions and over any range. */
  lemma ShrinkKeepsFitIsDownwardClosed(data: Buffer, forwards: bool, fits: Buffer -> bool, lo: int, hi: int)
    requires ShrinkKeepsFit(fits)
    ensures DownwardClosed(FitsAt(data, forwards, fits), lo, hi)
  {
    var fitsAt := FitsAt(data, forwards, fits);
    forall a, b | lo <= a <= b <= hi && fitsAt(b)
      ensures fitsAt(a)
    {
      var ca, cb := Candidate(data, forwards, a), Candidate(data, forwards, b);
      if forwards {
        assert ca.text == cb.text[..|ca.text|];
      } else {
        assert ca.text == cb.text[|cb.text| - |ca.text|..];
      }
      assert ShrinksFitting(fits, ca, cb);
    }
  }

  /** Reference definition of the lengths the halving loop measures, in
      order, when `length` is kept so far and the current step is `step`:
      the next probe is `length` plus half the step, kept when it fits, and
      the search goes on from there with half the step. */
  ghost function ProbeTrace(fitsAt: int -> bool, length: int, step: nat): seq<int>
    decreases step
  {
    if step <= 1 then []
    else
      var probe := length + step / 2;
      [probe] + ProbeTrace(fitsAt, if fitsAt(probe) then probe else length, step / 2)
  }

  /** Halving a power of two above 1 gives the next lower power. */
  lemma HalfOfPow2(j: nat)
    requires Pow2(j) > 1
    ensures j >= 1 && Pow2(j) / 2 == Pow2(j - 1)
  {
  }

  /** Between rounds of the halving loop, with `length` kept so far and
      current step `step`: the length lies in the range, fits unless it is
      the baseline, and the length one step above it does not fit. */
  ghost predicate Bracketed(fitsAt: int -> bool, base: int, top: int, length: int, step: nat) {
    && base <= length && length + step - 1 <= top
    && (length == base || fitsAt(length))
    && (length + step > top || !fitsAt(length + step))
  }

  /** The probes measured so far followed by the rest of the search make up
      the whole reference probe sequence. */
  ghost predicate TraceSoFar(fitsAt: int -> bool, base: int, chunk: nat, probes: seq<int>, length: int, step: nat) {
    probes + ProbeTrace(fitsAt, length, step) == ProbeTrace(fitsAt, base, chunk)
  }

  /** Every probe so far lies in `(base, top]`; it fits exactly when it is
      at most `length`, and one that overflowed is at least a step above it. */
  ghost predicate ProbesSplit(fitsAt: int -> bool, base: int, top: int, probes: seq<int>, length: int, step: nat) {
    && (forall t :: 0 <= t < |probes| ==> base < probes[t] <= top)
    && (forall t :: 0 <= t < |probes| ==> (fitsAt(probes[t]) <==> probes[t] <= length))
    && (forall t :: 0 <= t < |probes| && !fitsAt(probes[t]) ==> length + step <= probes[t])
  }

  lemma BracketRound(fitsAt: int -> bool, base: int, top: int, length: int, step: nat, j: nat, length': int, half: nat)
    requires Bracketed(fitsAt, base, top, length, step)
    requires step == Pow2(j) && step > 1 && half == step / 2
    requires length' == if fitsAt(length + half) then length + half else length
    ensures Bracketed(fitsAt, base, top, length', half)
  {
    HalfOfPow2(j);
    assert half + half == step by {
      assert Pow2(j) == 2 * Pow2(j - 1);
    }
  }

  lemma TraceRound(fitsAt: int -> bool, base: int, chunk: nat, probes: seq<int>, length: int, step: nat,
                   probes': seq<int>, length': int, half: nat)
    requires TraceSoFar(fitsAt, base, chunk, probes, length, step)
    requires step > 1 && half == step / 2
    requires probes' == probes + [length + half]
    requires length' == if fitsAt(length + half) then length + half else length
    ensures TraceSoFar(fitsAt, base, chunk, probes', length', half)
  {
    assert probes + [length + half] + ProbeTrace(fitsAt, length', half)
        == probes + ([length + half] + ProbeTrace(fitsAt, length', half));
  }

  lemma SplitRound(fitsAt: int -> bool, base: int, top: int, probes: seq<int>, length: int, step: nat,
                   probes': seq<int>, length': int, half: nat)
    requires ProbesSplit(fitsAt, base, top, probes, length, step)
    requires base <= length && length + step - 1 <= top
    requires step > 1 && half == step / 2
    requires probes' == probes + [length + half]
    requires length' == if fitsAt(length + half) then length + half else length
    ensures ProbesSplit(fitsAt, base, top, probes', length', half)
  {
    forall t | 0 <= t < |probes'|
      ensures base < probes'[t] <= top
      ensures fitsAt(probes'[t]) <==> probes'[t] <= length'
      ensures !fitsAt(probes'[t]) ==> length' + half <= probes'[t]
    {
      if t < |probes| {
        assert probes'[t] == probes[t];
      }
    }
  }

  /** One round of the halving loop: probe half a step above `length`, keep
      the probe if it fits, and halve the step. */
  method HalvingStep(fitsAt: int -> bool, base: int, chunk: nat, top: int, ghost probes: seq<int>,
                     length: int, step: nat, ghost j: nat)
    returns (length': int, ghost probes': seq<int>, half: nat, ghost j': nat)
    requires step == Pow2(j) && step > 1
    requires Bracketed(fitsAt, base, top, length, step)
    requires TraceSoFar(fitsAt, base, chunk, probes, length, step)
    requires ProbesSplit(fitsAt, base, top, probes, length, step)
    ensures j' == j - 1 && half == Pow2(j') && half < step
    ensures |probes'| == |probes| + 1
    ensures Bracketed(fitsAt, base, top, length', half)
    ensures TraceSoFar(fitsAt, base, chunk, probes', length', half)
    ensures ProbesSplit(fitsAt, base, top, probes', length', half)
  {
    HalfOfPow2(j);
    half := step / 2;
    j' := j - 1;
    var probe := length + half;
    probes' := probes + [probe];
    length' := if fitsAt(probe) then probe else length;
    BracketRound(fitsAt, base, top, length, step, j, length', half);
    TraceRound(fitsAt, base, chunk, probes, length, step, probes', length', half);
    SplitRound(fitsAt, base, top, probes, length, step, probes', length', half);
  }

  /** When the step reaches 1 the loop's state gives the search's answer. */
  lemma HalvingDone(fitsAt: int -> bool, base: int, chunk: nat, probes: seq<int>, length: int)
    requires chunk >= 1
    requires Bracketed(fitsAt, base, base + chunk - 1, length, 1)
    requires TraceSoFar(fitsAt, base, chunk, probes, length, 1)
    requires ProbesSplit(fitsAt, base, base + chunk - 1, probes, length, 1)
    ensures base <= length <= base + chunk - 1
    ensures length == base || fitsAt(length)
    ensures length == base + chunk - 1 || !fitsAt(length + 1)
    ensures probes == ProbeTrace(fitsAt, base, chunk)
    ensures forall t :: 0 <= t < |probes| ==> base < probes[t] <= base + chunk - 1
    ensures forall t :: 0 <= t < |probes| ==> (fitsAt(probes[t]) <==> probes[t] <= length)
    ensures DownwardClosed(fitsAt, base, base + chunk - 1) ==>
              length == LongestFitting(fitsAt, base, base + chunk - 1)
  {
    var top := base + chunk - 1;
    assert probes + [] == probes;
    if DownwardClosed(fitsAt, base, top) {
      forall m | length < m <= top
        ensures !fitsAt(m)
      {
        assert length + 1 <= m;
      }
      GreatestIsLongestFitting(fitsAt, base, top, length);
    }
  }

  /** The halving loop: from the baseline length `base`, try the step sizes
      `chunk/2, chunk/4, ..., 1` in turn, keeping a step exactly when the
      length one step longer fits. The lengths reachable are
      `[base, base + chunk - 1]`. `probes` are the lengths measured, in
      order. */
  method Halve(fitsAt: int -> bool, base: int, chunk: nat, ghost k: nat)
    returns (length: int, ghost probes: seq<int>)
    requires chunk == Pow2(k)
    ensures base <= length <= base + chunk - 1
    ensures length == base || fitsAt(length)
    ensures length == base + chunk - 1 || !fitsAt(length + 1)
    ensures probes == ProbeTrace(fitsAt, base, chunk)
    ensures |probes| == k
    ensures forall t :: 0 <= t < |probes| ==> base < probes[t] <= base + chunk - 1
    ensures forall t :: 0 <= t < |probes| ==> (fitsAt(probes[t]) <==> probes[t] <= length)
    ensures DownwardClosed(fitsAt, base, base + chunk - 1) ==>
              length == LongestFitting(fitsAt, base, base + chunk - 1)
  {
    var top := base + chunk - 1;
    length := base;
    probes := [];
    var i := chunk;
    ghost var j: nat := k;
    while i > 1
      invariant j <= k && i == Pow2(j)
      invariant |probes| == k - j
      invariant Bracketed(fitsAt, base, top, length, i)
      invariant TraceSoFar(fitsAt, base, chunk, probes, length, i)
      invariant ProbesSplit(fitsAt, base, top, probes, length, i)
      decreases i
    {
      length, probes, i, j := HalvingStep(fitsAt, base, chunk, top, probes, length, i, j);
    }
    HalvingDone(fitsAt, base, chunk, probes, length);
  }

  /** The search as the source writes it: baseline `N - (ChunkSize - 1)`, so
      that the lengths reachable are exactly `[N - ChunkSize + 1, N]`, in
      log2(ChunkSize) = 11 probes, the first one `ChunkSize / 2` above the
      baseline. The baseline itself is never measured. */
  method Search(data: Buffer, forwards: bool, fits: Buffer -> bool)
    returns (length: int, ghost probes: seq<int>)
    ensures |data.text| - ChunkSize + 1 <= length <= |data.text|
    ensures length == |data.text| - (ChunkSize - 1) || fits(Candidate(data, forwards, length))
    ensures length == |data.text| || !fits(Candidate(data, forwards, length + 1))
    ensures probes == ProbeTrace(FitsAt(data, forwards, fits), |data.text| - (ChunkSize - 1), ChunkSize)
    ensures |probes| == 11 && probes[0] == |data.text| - (ChunkSize - 1) + ChunkSize / 2
    ensures forall t :: 0 <= t < |probes| ==>
              |data.text| - (ChunkSize - 1) < probes[t] <= |data.text| &&
              (fits(Candidate(data, forwards, probes[t])) <==> probes[t] <= length)
    ensures DownwardClosed(FitsAt(data, forwards, fits), |data.text| - (ChunkSize - 1), |data.text|) ==>
              length == LongestFitting(FitsAt(data, forwards, fits), |data.text| - (ChunkSize - 1), |data.text|)
  {
    ChunkSizeIsPowerOfTwo();
    length, probes := Halve(FitsAt(data, forwards, fits), |data.text| - (ChunkSize - 1), ChunkSize, 11);
  }

  /** Counterexample to the as-written baseline: a page that holds exactly
      `capacity` code units, and a buffer that overshot it by a full chunk
      (growth stopped right after a full chunk was appended to a buffer of
      `capacity` code units that still fitted). The renderer meets the
      hypothesis `ShrinkKeepsFit` and fitting is monotone, yet the answer
      `Search` is bound to give is `capacity + 1`, which overflows, although
      the candidate of `capacity` code units fits. */
  lemma BaselineOverflow(data: Buffer, forwards: bool, fits: Buffer -> bool, capacity: nat)
    requires |data.text| == capacity + ChunkSize
    requires forall b :: fits(b) <==> |b.text| <= capacity
    ensures ShrinkKeepsFit(fits)
    ensures DownwardClosed(FitsAt(data, forwards, fits), |data.text| - (ChunkSize - 1), |data.text|)
    ensures LongestFitting(FitsAt(data, forwards, fits), |data.text| - (ChunkSize - 1), |data.text|) == capacity + 1
    ensures !fits(Candidate(data, forwards, capacity + 1))
    ensures fits(Candidate(data, forwards, capacity))
  {
    var n := |data.text|;
    var fitsAt := FitsAt(data, forwards, fits);
    forall a: Buffer, b: Buffer
      ensures ShrinksFitting(fits, a, b)
    {
    }
    forall m | capacity + 1 < m <= n
      ensures !fitsAt(m)
    {
      assert |Candidate(data, forwards, m).text| == m;
    }
    assert |Candidate(data, forwards, capacity + 1).text| == capacity + 1;
    GreatestIsLongestFitting(fitsAt, n - (ChunkSize - 1), n, capacity + 1);
  }

  /** When the top of a range does not fit, the answer for the range is the
      answer for the range without its top. */
  lemma LongestBelowTop(fitsAt: int -> bool, lo: int, hi: int, chunk: nat, r: int)
    requires hi == lo + chunk && lo <= r < hi && !fitsAt(hi)
    requires DownwardClosed(fitsAt, lo, lo + chunk - 1) ==> r == LongestFitting(fitsAt, lo, lo + chunk - 1)
    ensures DownwardClosed(fitsAt, lo, hi) ==> r == LongestFitting(fitsAt, lo, hi)
  {
    assert lo + chunk - 1 == hi - 1;
    if DownwardClosed(fitsAt, lo, hi) {
      assert DownwardClosed(fitsAt, lo, hi - 1);
    }
  }

  /** The corrected halving: the whole range `[base, top]` is tried first,
      and only when its top overflows does the halving loop search below it. */
  method HalveBelowTop(fitsAt: int -> bool, base: int, top: int, chunk: nat, ghost k: nat) returns (length: int)
    requires chunk == Pow2(k) && top == base + chunk
    ensures base <= length <= top
    ensures length == base || fitsAt(length)
    ensures length == top || !fitsAt(length + 1)
    ensures DownwardClosed(fitsAt, base, top) ==> length == LongestFitting(fitsAt, base, top)
  {
    if fitsAt(top) {
      return top;
    }
    ghost var probes;
    length, probes := Halve(fitsAt, base, chunk, k);
    LongestBelowTop(fitsAt, base, top, chunk, length);
  }

  /** The search with the baseline the growth phase actually guarantees:
      the buffer fitted before its last chunk, at most `ChunkSize` code units
      ago, so the baseline is `N - ChunkSize`; the whole buffer is tried
      first, since a buffer that stopped at the boundary may fit entirely. */
  method SearchCorrected(data: Buffer, forwards: bool, fits: Buffer -> bool) returns (length: int)
    ensures |data.text| - ChunkSize <= length <= |data.text|
    ensures fits(Candidate(data, forwards, |data.text| - ChunkSize)) ==> fits(Candidate(data, forwards, length))
    ensures length == |data.text| || !fits(Candidate(data, forwards, length + 1))
    ensures DownwardClosed(FitsAt(data, forwards, fits), |data.text| - ChunkSize, |data.text|) ==>
              length == LongestFitting(FitsAt(data, forwards, fits), |data.text| - ChunkSize, |data.text|)
  {
    ChunkSizeIsPowerOfTwo();
    length := HalveBelowTop(FitsAt(data, forwards, fits), |data.text| - ChunkSize, |data.text|, ChunkSize, 11);
  }

  /** The buffer before the last fetch fitted and lies within `ChunkSize`
      code units of the end of growth, on the growth side; under the renderer
      hypothesis, the corrected search's baseline candidate fits. */
  lemma PreOverflowFits(data: Buffer, forwards: bool, fits: Buffer -> bool, last: Buffer)
    requires ShrinkKeepsFit(fits)
    requires fits(last) && |data.text| <= |last.text| + ChunkSize
    requires forwards ==> last.text <= data.text
    requires !forwards ==> IsSuffix(last.text, data.text)
    ensures fits(Candidate(data, forwards, |data.text| - ChunkSize))
  {
    var c := Candidate(data, forwards, |data.text| - ChunkSize);
    if forwards {
      assert c.text == last.text[..|c.text|];
    } else {
      assert c.text == last.text[|last.text| - |c.text|..];
    }
    assert ShrinksFitting(fits, c, last);
  }

  /** What the trim phase ends with: a window to commit, or a fresh
      pagination from `offset` in direction `forwards`. */
  datatype Decision = Commit(window: Buffer) | Restart(offset: nat, forwards: bool)

  /** The committed window: the candidate of the final length, with both
      annotation lists of the untrimmed buffer filtered to those overlapping
      the window, bounds inclusive, order preserved. */
  ghost predicate IsWindowOf(w: Buffer, data: Buffer, c: Buffer) {
    && w.offset == c.offset
    && w.text == c.text
    && IsFilterOf(w.typography, data.typography, Overlaps(w.offset, End(w)))
    && IsFilterOf(w.semantics, data.semantics, Overlaps(w.offset, End(w)))
  }

  /** The boundary correction: a backward result at offset 0 restarts
      forwards from 0; a forward result with no text restarts backwards from
      the same offset; anything else is committed. */
  function Finalise(data: Buffer, forwards: bool, length: int): (d: Decision)
    requires length <= |data.text|
    ensures d.Restart? && d.forwards <==> !forwards && Candidate(data, forwards, length).offset == 0
    ensures d.Restart? && !d.forwards <==> forwards && length <= 0
    ensures d.Restart? && d.forwards ==> d.offset == 0
    ensures d.Restart? && !d.forwards ==> d.offset == data.offset
    ensures d.Commit? ==> IsWindowOf(d.window, data, Candidate(data, forwards, length))
  {
    var t := Candidate(data, forwards, length);
    if !forwards && t.offset == 0 then
      Restart(0, true)
    else if forwards && |t.text| == 0 then
      Restart(t.offset, false)
    else
      var keep := Overlaps(t.offset, End(t));
      Commit(Buffer(t.offset, t.text, Filter(data.typography, keep), Filter(data.semantics, keep)))
  }

  /** Under the renderer hypothesis, the committed window fits whenever the
      candidate it was cut from fits: filtering the annotations does not
      change the text. */
  lemma WindowFits(data: Buffer, forwards: bool, fits: Buffer -> bool, length: int)
    requires ShrinkKeepsFit(fits) && length <= |data.text|
    requires fits(Candidate(data, forwards, length))
    ensures Finalise(data, forwards, length).Commit? ==> fits(Finalise(data, forwards, length).window)
  {
    var c := Candidate(data, forwards, length);
    var d := Finalise(data, forwards, length);
    if d.Commit? {
      assert d.window.text <= c.text;
      assert ShrinksFitting(fits, d.window, c);
    }
  }

  /** The corrected pagination's window fits: growth from an empty page that
      fits left a fitting buffer within `ChunkSize` code units of the end,
      the corrected search keeps a fitting length from there, and the window
      has that candidate's text. */
  lemma CommittedWindowFits(data: Buffer, forwards: bool, fits: Buffer -> bool, start: nat, last: Buffer, length: int)
    requires ShrinkKeepsFit(fits) && fits(Buffer(start, [], [], []))
    requires |data.text| > 0 ==> fits(last) && |data.text| <= |last.text| + ChunkSize
    requires |data.text| > 0 && forwards ==> last.text <= data.text
    requires |data.text| > 0 && !forwards ==> IsSuffix(last.text, data.text)
    requires |data.text| - ChunkSize <= length <= |data.text|
    requires fits(Candidate(data, forwards, |data.text| - ChunkSize)) ==> fits(Candidate(data, forwards, length))
    ensures fits(Candidate(data, forwards, length))
    ensures Finalise(data, forwards, length).Commit? ==> fits(Finalise(data, forwards, length).window)
  {
    PreOverflowFits(data, forwards, fits, if |data.text| > 0 then last else Buffer(start, [], [], []));
    WindowFits(data, forwards, fits, length);
  }

  /** The as-written search on a view where only the empty text fits: a
      forward buffer of exactly one chunk leaves the unmeasured baseline of
      one code unit, and that code unit is committed although it does
      not fit. */
  lemma OneUnmeasuredCharacter(data: Buffer, fits: Buffer -> bool)
    requires |data.text| == ChunkSize
    requires forall b :: fits(b) <==> |b.text| == 0
    ensures var r := LongestFitting(FitsAt(data, true, fits), 1, ChunkSize);
      && r == 1
      && Finalise(data, true, r).Commit?
      && |Finalise(data, true, r).window.text| == 1
      && !fits(Finalise(data, true, r).window)
  {
    BaselineOverflow(data, true, fits, 0);
  }
}
